=== FILE: README.md ===
# Last-writer-wins WebDAV sync, modelled in Dafny

This project models the client-side sync core of `chrome-extension-libs`. A
browser extension keeps a local database and shares it through one WebDAV
folder with the same extension on other devices. There is no server-side
logic. Every device uploads full snapshots named
`{extName}-export_{date}_{cuid}.json`. On every tick it looks at the most
recently modified snapshot in the folder:

- if the snapshot is its own, it uploads a fresh one;
- if another device wrote it, it imports the snapshot and renames it to its
  own name.

The model covers three parts:

- **Device identity** (`src/cuid.ts`): a random id stored once per
  installation under a configurable key.
- **Snapshot naming, listing and the conflict-resolution tick**
  (`src/webdav.ts`): the cached WebDAV client and its configuration,
  `saveData`, `restoreData`, `parseFileName`, `isCreatedBy`, `sortFiles` and
  `createDataSyncTick`.
- **The sync engine** (`src/sync.ts`): status, a repeating timer, the
  "received" event, `tryStartSync` and the auto-sync listener.

Everything is pure functions over immutable state:

- A `Device` holds the key-value store, the current cuid key, the cached
  client and the local database bytes.
- A `Server` holds its reachability and the listed files.
- An `Engine` holds the sync instance's fields plus the host's timer table.
- An operation returns a `Run`: its settled outcome (`Normal` for a resolved
  promise, `Abrupt` for a rejected one), the new state, and the remote or
  database effects it performed, in order.
- The date string from `dayjs()`, the current time, and the value
  `crypto.randomUUID()` would return are parameters.

Modules, in dependency order:

- `Common`: `Option`.
- `Strings`: `indexOf` and `split` on one character.
- `Storage`: the store, JavaScript truthiness and `${}` conversion.
- `Cuid`
- `Naming`: snapshot names and `parseFileName`.
- `Listing`: remote files and `sortFiles`.
- `Remote`: the server's put and move.
- `Webdav`
- `TickProperties`: what one tick does in each protocol case.
- `Sync`
- `System`: the engine driving the conflict-resolver tick.

## Behaviour of the code worth knowing

The model follows the code as written. Four points stand out.

- The sync interval is not clamped. `options?.syncInterval ?? MAX` keeps any
  number, zero included. `getSyncInterval` replaces only a falsy interval
  with the maximum (`Sync.GetSyncInterval`, `Sync.EffectiveInterval`).
- `syncStatus` is undefined until it is first assigned by `stopSync`. The
  model calls this state `Status.Unset`.
- A zero-byte snapshot from another device is not skipped. `if (content)` on
  an ArrayBuffer lets it through to `importDBFile` (Findings, row 1). What
  that import then does is outside this model, where an import always
  succeeds. The conflict-resolver tick
  takes the content test as a parameter. `ObjectTruthiness` is the code as
  written and `NonEmpty` is the corrected test.
- `isWebDavConfiged` always reports true (Findings, row 2).

## Model

| member | source | states |
|---|---|---|
| Cuid.RestoreCuid | src/cuid.ts:13-17 | A value comes back exactly when the key is present, and it is the stored value. |
| Cuid.Init | src/cuid.ts:5-11 | The returned id is the generated one and is stored under the key. No other key changes. |
| Cuid.GetCuid | src/cuid.ts:19-27 | The returned id is stored under the key and is never falsy. A truthy stored id is returned unchanged with the store untouched. Otherwise the generated id is returned and stored. No other key changes. |
| Cuid.FreshInstallId | src/cuid.ts:3-27 | On a fresh install that never called `initCuid`, the first id is the generated one, stored under `"cuid"` and nowhere else. |
| Cuid.GetCuidIdempotent | src/cuid.ts:5-27 | A second `getCuid` after the first one's write returns the same id and writes nothing, so the identity is stable. |
| Cuid.InitCuidSelectsKey | src/cuid.ts:3-31 | After `initCuid(k)` the id is read from and written to `k` only. Entries under other keys are unaffected. |
| Cuid.DistinctKeysIndependent | src/cuid.ts:29-31 | Two identities under different keys of one store do not influence each other. |
| Strings.BeforeFirst | src/webdav.ts:183 | `s.split(pat)[0]` is a prefix of `s` with no occurrence of `pat` inside it. Either it is all of `s`, or it ends where the first occurrence begins. |
| Strings.Split | src/webdav.ts:183 | `split` on one character gives at least one part. No part contains the separator. Joining the parts with it gives back the input. |
| Naming.DataFullFileName | src/webdav.ts:146-151 | The path starts with the root path and a `/`, ends with `.json`, and between them holds exactly the snapshot name. |
| Naming.Stem | src/webdav.ts:183 | The part before the first `.json` is a prefix of the name. |
| Naming.ParseFileName | src/webdav.ts:182-190 | The fields contain no `_`. A date is absent exactly when the stem has no `_`, in which case base is the whole stem. Base, date and cuid are the leading fields of the stem, and the rest of the stem begins with `_`. |
| Naming.ParseSnapshotNameRoundTrip | src/webdav.ts:146-151 | Parsing the name `getDataFullFileName` builds gives back `extName-export`, the date and the cuid, provided none contains `_` or `.json`. |
| Naming.ParseIgnoresAfterSuffix | src/webdav.ts:183 | Anything after the first `.json` of a name is ignored by the parse. |
| Listing.SortFiles | src/webdav.ts:213-217 | `sortFiles` returns a permutation of the listing in which no file follows an older one. |
| Listing.SortFilesLatestFirst | src/webdav.ts:213-223 | The file the tick picks is a listed file, and no listed file is more recent. |
| Listing.SortFilesUniqueLatest | src/webdav.ts:213-223 | A file strictly more recent than all others is the one picked. |
| Remote.Upload | src/webdav.ts:161 | After a put, the path holds the data, stamped with the caller's `now`. The other files are the old ones without that path. |
| Remote.MoveTo | src/webdav.ts:209-211 | After a move, the destination holds the moved bytes, stamped with the caller's `now`. Nothing is left at the source path, and the other files are kept. |
| Remote.BaseNameOfChild | src/webdav.ts:150 | The snapshot path lists under its file name. |
| Webdav.RemoveWebDavConfig | src/webdav.ts:68-71 | The configuration and the cached client are gone, and nothing else changes. |
| Webdav.SavedUrlIsReported | src/webdav.ts:73-97 | After `saveConfig(c)`, `getWebDavURL` returns `c.url`. |
| Webdav.RemovedUrlIsEmpty | src/webdav.ts:68-81 | After `removeWebDavConfig`, `getWebDavURL` returns `""`. |
| Webdav.IsWebDavConfigedAsWritten | src/webdav.ts:83-91 | As written, the result is true whatever is stored. |
| Webdav.IsWebDavConfiged | src/webdav.ts:54-91 | The intended check: true exactly when a truthy configuration is stored. |
| Webdav.RestoreConfig | src/webdav.ts:54-58 | A configuration is reported exactly when the stored value is truthy, and it is the stored value. |
| Webdav.SaveConfig | src/webdav.ts:93-97 | Reading the configuration back gives the saved record. No other key changes. |
| Webdav.GetWebDavURL | src/webdav.ts:73-81 | With no configuration the URL is empty. With a stored record it is that record's URL. It is absent exactly when the stored value is truthy but not a record. |
| Webdav.ConfigedAsWrittenIgnoresStore | src/webdav.ts:83-91 | On a store without a configuration, the as-written check says yes and the intended one says no. |
| Webdav.InitClientWithConfig | src/webdav.ts:114-130 | A client is returned and cached exactly when the server answers and either the root exists or it can be created. The root is created only when missing. On error the result is null and nothing changes. The call never rejects. |
| Webdav.GetClient | src/webdav.ts:132-144 | A cached client is returned as it is. With no client and no configuration the call rejects. A stored configuration record gives the result of building a client from that record. The store and the database are never touched. |
| Webdav.CachedClientIgnoresConfig | src/webdav.ts:132-135 | With a cached client, the outcome does not depend on the store. |
| Webdav.RemovedConfigRejects | src/webdav.ts:68-144 | After `removeWebDavConfig`, `getClient` rejects. |
| Webdav.SaveData | src/webdav.ts:153-168 | A successful save uploads the local database, unchanged, under this device's snapshot name, and that upload is its last effect. Only the cuid entry of the store may change. |
| Webdav.RestoreData | src/webdav.ts:170-180 | A non-empty listing is the server's listing and implies a cached client. The store and the database are untouched. |
| Webdav.IsCreatedBy | src/webdav.ts:192-201 | True exactly when the cuid field of the file's base name equals this device's id. The store is left as `getCuid` leaves it. |
| Webdav.PullLatest | src/webdav.ts:230-241 | A pull either leaves the database alone or replaces it with the latest file's content, recording the import. Reporting new data implies the replacement. Not reporting it leaves the server unchanged. |
| Webdav.Resolve | src/webdav.ts:222-247 | After a listing, the database is either unchanged or the first file's content, recording the import. Only the cuid entry of the store may change. |
| Webdav.Tick | src/webdav.ts:219-248 | A tick reporting no new data leaves the database unchanged. A changed database is always recorded as an import. Reporting new data means the database now holds a listed file's content. |
| Webdav.LatestIsListed | src/webdav.ts:220-223 | The file picked after sorting is one the listing returned. |
| TickProperties.GetClientWhenHealthy | src/webdav.ts:132-144 | When reachable and configured, `getClient` yields a cached client, creating the root only if missing. |
| TickProperties.ListingWhenHealthy | src/webdav.ts:170-180 | When the device is reachable and configured, `restoreData` connects and returns the server's whole listing. |
| TickProperties.TickWhenHealthy | src/webdav.ts:219-224 | When the device is healthy, a tick is the connection's effects followed by resolving the sorted listing. |
| TickProperties.UploadWhenConnected | src/webdav.ts:153-168 | With a client and a writable server, `saveData` does one thing: it uploads the unchanged local database under the device's id, storing the id. |
| TickProperties.PullWhenConnected | src/webdav.ts:230-238 | When the content passes the test and the server is writable, a pull does two things: it imports the content, then moves the file to the device's name. |
| TickProperties.TickResolvesLatest | src/webdav.ts:219-242 | On a non-empty listing, the tick uploads exactly when `isCreatedBy` holds for the latest file. Otherwise it pulls that file. |
| TickProperties.TickOnEmptyListing | src/webdav.ts:243-247 | On an empty folder, exactly one snapshot is uploaded: the local database under this device's name. Nothing is imported and the result is false. |
| TickProperties.TickOnOwnLatest | src/webdav.ts:225-229 | When the latest file is this device's, a fresh snapshot is uploaded. Nothing is imported or moved, and the result is false. |
| TickProperties.TickOnForeignLatest | src/webdav.ts:230-238 | When the latest file belongs to another device and holds data, exactly that data is imported and the file is moved to this device's name. The result is true. |
| TickProperties.TickOnEmptyForeignLatest | src/webdav.ts:234-241 | Corrected behaviour: an empty foreign snapshot is neither imported nor moved, and the result is false. |
| TickProperties.EmptyForeignLatestImportedAsWritten | src/webdav.ts:231-238 | As written, an empty foreign snapshot is passed to the import. In this model, where the import always succeeds, it replaces the local database and the result is true. |
| TickProperties.MovedFileIsLatest | src/webdav.ts:209-211 | When `now` is later than every file's modification time, the renamed file becomes the latest in the folder. |
| TickProperties.OwnPathParsesToId | src/webdav.ts:146-190 | The cuid parsed from this device's snapshot name is its id. |
| TickProperties.PulledSnapshotOwned | src/webdav.ts:230-238 | With a clock later than every listed file and an extension name, date and device id free of `_`, `.json` and `/`, the latest file after a pull is owned by the pulling device. |
| TickProperties.TickOnPulledState | src/webdav.ts:225-229 | Under the same clock and naming conditions, the next tick from the state a pull leaves has one effect: an upload of the local database under the device's name. It reports no new data. |
| TickProperties.TickAfterPullFindsOwnSnapshot | src/webdav.ts:219-248 | Under the same clock and naming conditions, the tick after a pull finds its own snapshot on top. It only uploads and reports no new data, so the next tick does not pull again. |
| Sync.New | src/sync.ts:26-32 | A new engine is idle and has no timer. The interval is the supplied one, zero included, otherwise the maximum. |
| Sync.StopSync | src/sync.ts:47-50 | Status becomes `WAIT` and the held timer is cleared. An engine in its invariant is left with no timer. |
| Sync.RunDataSyncTick | src/sync.ts:52-64 | `SUCCESS` exactly when the tick resolves, with "received" emitted once exactly when it reports new data. `FAIL` on rejection, with nothing emitted. The timer is untouched. |
| Sync.GetSyncInterval | src/sync.ts:66-70 | Zero falls back to the maximum. Any other interval is used without clamping. |
| Sync.EffectiveInterval | src/sync.ts:32-70 | A new engine polls at the supplied interval unless it is absent or zero. |
| Sync.StartSync | src/sync.ts:72-82 | The previous timer is cancelled. Status goes `WAIT`, `BEGIN`, then the tick's outcome. Exactly one repeating timer is left, at the engine's interval, whatever the outcome. The invariant is kept. |
| Sync.OnTimer | src/sync.ts:52-81 | A firing of an active timer runs one tick: the status, the status write and the "received" rule are those of `runDataSyncTick`. A cleared timer does nothing. |
| Sync.TryStartSync | src/sync.ts:84-88 | Starts syncing only when configured. Otherwise the engine is unchanged. |
| Sync.IsAutoSync | src/sync.ts:19-23 | True exactly when the stored flag is the number 1. |
| Sync.AutoSyncIsNotTruthiness | src/sync.ts:19-23 | Truthy flags such as `true`, `2` or `"1"` do not enable auto-sync. |
| Sync.OnDbUpdate | src/sync.ts:37-45 | A database change tries to start syncing only when auto-sync is on. |
| Sync.Construct | src/sync.ts:30-35 | A new engine is polling with one timer when configured, and idle with none otherwise. |
| System.StartSyncOn | src/sync.ts:72-82 | Driven by the conflict-resolver tick under either content test, the engine ends with one timer and the status sequence `WAIT`, `BEGIN`, outcome. "Received" is emitted at most once, and only when the database now holds a file from the server. |
| System.TryStartSyncOn | src/sync.ts:84-88 | Nothing happens unless the configuration check says yes. |
| System.TickUnconfigured | src/webdav.ts:132-180 | Without a client or a configuration, the tick rejects and touches nothing. |
| System.UnconfiguredStartAsWritten | src/sync.ts:84-88 | As written, an unconfigured engine still starts. It ends in `FAIL` with a timer that keeps failing. |
| System.UnconfiguredStartIntended | src/sync.ts:84-88 | With the intended check, an unconfigured engine stays idle with no timer. |
| System.FirstSyncOnEmptyRemote | src/sync.ts:72-82 | The first sync on an empty folder ends in `SUCCESS`, emits nothing, and leaves exactly one snapshot. |
| System.SyncPullsForeignSnapshot | src/sync.ts:52-64 | A sync that finds another device's non-empty snapshot ends in `SUCCESS`, emits "received" once, and holds that snapshot's data. |
| System.EmptyForeignSnapshotReceivedAsWritten | src/webdav.ts:231-238 | As written, when another device's zero-byte snapshot is on top, it is passed to the import. In this model, where the import always succeeds, the local database becomes empty, "received" is emitted once, and the status is `SUCCESS`. |
| System.EmptyForeignSnapshotIgnored | src/webdav.ts:234-241 | Corrected: the same sync reports `SUCCESS`, emits nothing, and leaves the database and the server unchanged. |
| System.SnapshotPropagates | src/webdav.ts:219-248 | Under either content test, when device A syncs to an empty folder and then device B syncs, B's database becomes A's. |

## Left out

- I/O and asynchrony. Every storage write, WebDAV request and database
  import is modelled as completing before the next step. Interleavings of
  concurrent ticks, or of ticks from two devices, are not modelled.
- `throttle` from lodash, with spacing `WEBDAV_MIN_SYNC_INTERVAL`.
  `Sync.StartSync` models one effective invocation. Coalescing and the
  trailing-edge call are timing behaviour and are not modelled.
- Timer timing. `setInterval` is modelled as a handle in a timer table, and
  a firing as `Sync.OnTimer`. Real time, and ticks that overlap when one
  takes longer than the interval, are not modelled.
- `src/constant.ts` is not part of this model. `WEBDAV_MAX_SYNC_INTERVAL`
  and the auto-sync storage key are parameters.
- `src/event.ts` is not part of this model. Emitting is appending to
  `Engine.emitted`.
- `src/db.helper.ts` is not part of this model. `exportAsJson` is the
  device's database bytes, and `importDBFile` is modelled as always
  succeeding and replacing them.
- TickProperties.EmptyForeignLatestImportedAsWritten: the database emptied
  and the data reported as new follow from the import always succeeding.
  The importer in `src/db.helper.ts` reads the blob as a database export,
  and a zero-byte blob is not one, so it may reject. The tick would then
  fail with the database unchanged. Only the attempt to import is claimed
  about the code. The same holds for
  `System.EmptyForeignSnapshotReceivedAsWritten`.
- `initWebdav`, the axios/fetch adapter and the `document` shim (lines
  11-50, 99-112 of `src/webdav.ts`). The root path and extension name are
  the `Env` parameter.
- `dayjs().format("YYYY-MM-DD")` and `crypto.randomUUID()` are parameters.
  Date formatting is not modelled.
- Remote failures are reduced to the server flags `online`, `writable` and
  `rootExists`. A move to a destination that already exists overwrites it.
  The server stamps the caller's `now` on both put and move.
- Webdav.PullLatest: `renameFileWithCuid` passes the un-awaited
  `getDataFullFileName()` Promise as the destination. The model moves the
  file to the awaited name. What the WebDAV library does with a Promise
  argument depends on code outside this model, so this is not claimed as a
  finding.
- Webdav.GetClient: a stored configuration that is truthy but not a record
  is treated as a failed connection (`null`), not as a request with
  undefined credentials.
- Webdav.GetWebDavURL: a stored value that is truthy but not a record has no
  `url` field, so the code returns `undefined`; the model reports `None`.
- Sync.GetSyncInterval: the interval is an integer, while in the code it is
  a JavaScript number. A fractional period and NaN are not modelled. NaN is
  falsy, so `this.syncInterval || MAX` would replace it with the maximum,
  just as it replaces 0.
- Storage values are text, integers, booleans and configuration records.
  JSON `null` is an absent key, and floating-point numbers are not modelled.
- Listing.SortFiles: the comparator never reports a tie, so JavaScript
  leaves the order of equally recent files unspecified. The model keeps
  listing order. Every lemma about the picked file holds whatever order
  ties take.
- `src/index.ts` (module surface and the singleton accessor) is not part of
  this model.

## Findings

| source | as written | input that shows it | evidently intended | confidence | as-written member | corrected member |
|---|---|---|---|---|---|---|
| src/webdav.ts:231-238 | `if (content)` tests the binary download, an ArrayBuffer, which is always truthy. | The latest file belongs to another device and has zero bytes. The guard passes it to `importDBFile`. In this model, where the import succeeds, the local database is replaced with an empty snapshot and the tick reports new data. A real import of a zero-byte blob may instead reject, which fails the tick and repeats on every tick. | Import only a snapshot that holds data; otherwise report false and change nothing. | not executed; follows from JavaScript truthiness of objects | TickProperties.EmptyForeignLatestImportedAsWritten | TickProperties.TickOnEmptyForeignLatest |
| src/webdav.ts:83-91 | `restoreConfig()` is not awaited, so `if (config)` tests a Promise, which is always truthy. | A fresh install with no stored configuration. `tryStartSync` starts anyway, the tick rejects, and the engine sits in `FAIL` with a timer that keeps failing. | Report true only when a configuration is stored. | not executed; follows from JavaScript truthiness of objects | System.UnconfiguredStartAsWritten | System.UnconfiguredStartIntended |

=== FILE: common.dfy ===
/** Small shared vocabulary: an optional value, used for JavaScript's
    `undefined` / `null` results. */
module Common {

  datatype Option<+T> = None | Some(value: T) {

    /** The value if present, otherwise `default`. */
    function GetOr(default: T): T {
      match this
      case Some(v) => v
      case None => default
    }
  }
}

=== FILE: cuid.dfy ===
/** Device identity (`src/cuid.ts`): a random id created once per installation
    and kept in the key-value store under a key the embedding extension can
    choose (`initCuid`). The module's only state is that key; it is carried by
    the caller, so every operation takes it explicitly. */
module Cuid {
  import opened Common
  import opened Storage

  /** The key used until `initCuid` replaces it. */
  const DefaultStorageKey: string := "cuid"

  /** What `crypto.randomUUID()` returns: a string that is never empty (it is
      always 36 characters long). */
  type Uuid = s: string | |s| > 0 witness "0"

  /** The id a call produced and the store after it. */
  datatype Lookup = Lookup(id: Value, store: Store)

  /** `restoreCuid()`: the value under the current key. */
  function RestoreCuid(key: string, store: Store): (r: Option<Value>)
    ensures r.Some? <==> key in store
    ensures r.Some? ==> r.value == store[key]
  {
    GetItem(store, key)
  }

  /** `init()`: persist a freshly generated id under the current key. The
      write is modelled as completed when the call returns. */
  function Init(key: string, store: Store, generated: Uuid): (r: Lookup)
    ensures r.id == Text(generated)
    ensures key in r.store && r.store[key] == r.id
    ensures r.store - {key} == store - {key}
  {
    Lookup(Text(generated), SetItem(store, key, Text(generated)))
  }

  /** `getCuid()`: the stored id when it is truthy, otherwise a generated one that
      is stored. Afterwards the store holds the returned id under the key, the
      id is never falsy, and no other entry is touched. */
  function GetCuid(key: string, store: Store, generated: Uuid): (r: Lookup)
    ensures key in r.store && r.store[key] == r.id
    ensures Truthy(Some(r.id))
    ensures r.store - {key} == store - {key}
    ensures Truthy(GetItem(store, key)) ==> r.id == store[key] && r.store == store
    ensures !Truthy(GetItem(store, key)) ==> r.id == Text(generated)
  {
    var id := RestoreCuid(key, store);
    if Truthy(id) then Lookup(id.value, store) else Init(key, store, generated)
  }

  /** A fresh installation that never called `initCuid`: the first id is
      the generated one, stored under the key "cuid" and nowhere else. */
  lemma FreshInstallId(generated: Uuid)
    ensures GetCuid(DefaultStorageKey, map[], generated)
            == Lookup(Text(generated), map["cuid" := Text(generated)])
  {
  }

  /** Two calls in a row, the first call's write having completed, give the
      same id, and the second writes nothing. */
  lemma GetCuidIdempotent(key: string, store: Store, generated1: Uuid, generated2: Uuid)
    ensures var first := GetCuid(key, store, generated1);
            GetCuid(key, first.store, generated2) == first
  {
  }

  /** After `initCuid(k)` every read and write of the identity goes to `k`:
      the id is whatever is truthy under `k` (else the generated one), and an
      entry under any other key, such as the id of another extension sharing
      the store, is left as it was. */
  lemma InitCuidSelectsKey(k: string, other: string, store: Store, generated: Uuid)
    requires other != k
    ensures var r := GetCuid(k, store, generated);
            GetItem(r.store, other) == GetItem(store, other)
            && (Truthy(GetItem(store, k)) ==> r.id == store[k])
  {
    var r := GetCuid(k, store, generated);
    assert other in r.store <==> other in r.store - {k};
    assert other in store <==> other in store - {k};
    if other in store {
      assert (r.store - {k})[other] == (store - {k})[other];
    }
  }

  /** Two installations sharing one store under different keys keep
      independent ids: creating or reading one id does not change the other. */
  lemma DistinctKeysIndependent(k1: string, k2: string, store: Store, generated1: Uuid, generated2: Uuid)
    requires k1 != k2
    ensures var a := GetCuid(k1, store, generated1);
            GetCuid(k2, a.store, generated2).id == GetCuid(k2, store, generated2).id
  {
    InitCuidSelectsKey(k1, k2, store, generated1);
  }
}

=== FILE: listing.dfy ===
/** A remote directory listing and the "latest first" order `sortFiles`
    imposes on it. */
module Listing {

  type Bytes = seq<bv8>

  /** One entry of `getDirectoryContents`: full path, last path segment, the
      server's last-modified time (a timestamp rather than a date string) and
      the file's bytes, which `getFileContents` would return. */
  datatype RemoteFile = RemoteFile(filename: string, basename: string, lastmod: int, content: Bytes)

  /** No file comes after one with an older modification time. */
  ghost predicate LatestFirst(files: seq<RemoteFile>) {
    forall i, j :: 0 <= i < j < |files| ==> files[j].lastmod <= files[i].lastmod
  }

  /** Places `f` into a latest-first sequence, after every file at least as
      recent (the comparator `a.lastmod > b.lastmod ? -1 : 1` only moves a
      file ahead of strictly older ones). */
  function Insert(sorted: seq<RemoteFile>, f: RemoteFile): (r: seq<RemoteFile>)
    requires LatestFirst(sorted)
    ensures LatestFirst(r)
    ensures multiset(r) == multiset(sorted) + multiset{f}
    ensures |r| == |sorted| + 1
    ensures r[0] == f || (|sorted| > 0 && r[0] == sorted[0])
  {
    if |sorted| == 0 then [f]
    else if f.lastmod > sorted[0].lastmod then [f] + sorted
    else
      assert sorted == [sorted[0]] + sorted[1..];
      [sorted[0]] + Insert(sorted[1..], f)
  }

  /** `sortFiles(files)`: the same files, latest first. The source's
      comparator never reports a tie, so JavaScript leaves the order of
      equally recent files unspecified; this model keeps them in listing
      order. The two lemmas below hold whatever order ties take. */
  function SortFiles(files: seq<RemoteFile>): (r: seq<RemoteFile>)
    ensures LatestFirst(r)
    ensures multiset(r) == multiset(files)
  {
    if |files| == 0 then []
    else
      assert files == files[..|files| - 1] + [files[|files| - 1]];
      Insert(SortFiles(files[..|files| - 1]), files[|files| - 1])
  }

  /** The first file after sorting is one of the listed files and no listed
      file is more recent than it. */
  lemma SortFilesLatestFirst(files: seq<RemoteFile>)
    requires |files| > 0
    ensures |SortFiles(files)| == |files|
    ensures SortFiles(files)[0] in files
    ensures forall f :: f in files ==> f.lastmod <= SortFiles(files)[0].lastmod
  {
    var r := SortFiles(files);
    assert |r| == |multiset(r)| == |multiset(files)| == |files|;
    assert r[0] in multiset(r);
    forall f | f in files
      ensures f.lastmod <= r[0].lastmod
    {
      assert f in multiset(files);
      var j :| 0 <= j < |r| && r[j] == f;
    }
  }

  /** A file strictly more recent than every other listed file is the one
      sorting puts first. */
  lemma SortFilesUniqueLatest(files: seq<RemoteFile>, latest: RemoteFile)
    requires latest in files
    requires forall f :: f in files && f != latest ==> f.lastmod < latest.lastmod
    ensures SortFiles(files)[0] == latest
  {
    SortFilesLatestFirst(files);
  }
}

=== FILE: naming.dfy ===
/** The snapshot file-name convention of `src/webdav.ts`: a snapshot uploaded
    by a device is named `{extName}-export_{date}_{cuid}.json`, and a listed
    file's owner is recovered with `parseFileName`. */
module Naming {
  import opened Common
  import opened Strings

  /** The suffix every snapshot name ends with, and where parsing cuts. */
  const JsonSuffix: string := ".json"

  /** Base name of the snapshot a device with id text `cuid` uploads on `date`. */
  function SnapshotName(extName: string, date: string, cuid: string): string {
    extName + "-export" + "_" + date + "_" + cuid + JsonSuffix
  }

  /** `getDataFullFileName()`: the snapshot's path under the root directory. */
  function DataFullFileName(rootPath: string, extName: string, date: string, cuid: string): (path: string)
    ensures rootPath + "/" <= path
    ensures |path| == |rootPath| + 1 + |SnapshotName(extName, date, cuid)|
    ensures path[|path| - |JsonSuffix|..] == JsonSuffix
  {
    rootPath + "/" + SnapshotName(extName, date, cuid)
  }

  /** The three fields `parseFileName` destructures; JavaScript's `undefined`
      for a missing field is `None`. `base` is always present because `split`
      never returns an empty array. */
  datatype FileInfo = FileInfo(base: string, date: Option<string>, cuid: Option<string>)

  /** `name.split(".json")[0]`: the part of a name that is parsed. */
  function Stem(name: string): (stem: string)
    ensures stem <= name
  {
    BeforeFirst(name, JsonSuffix)
  }

  /** `parseFileName(name)`: the first three `_`-separated fields of the text
      before the first `.json`. Fields never contain `_`; when the stem has no
      `_` it is all base; with one `_` it is exactly base and date; with two or
      more, base, date and cuid are its leading fields and anything after them
      starts with a further `_` and is ignored. */
  function ParseFileName(name: string): (info: FileInfo)
    ensures '_' !in info.base
    ensures info.date.Some? ==> '_' !in info.date.value
    ensures info.cuid.Some? ==> info.date.Some? && '_' !in info.cuid.value
    ensures info.date.None? <==> '_' !in Stem(name)
    ensures info.date.None? ==> info.base == Stem(name)
    ensures info.date.Some? && info.cuid.None? ==>
              Stem(name) == info.base + "_" + info.date.value
    ensures info.cuid.Some? ==>
              var head := info.base + "_" + info.date.value + "_" + info.cuid.value;
              head <= Stem(name) && (|head| == |Stem(name)| || Stem(name)[|head|] == '_')
  {
    var stem := Stem(name);
    var parts := Split(stem, '_');
    JoinLeadingFields(parts, '_');
    FileInfo(
      parts[0],
      if |parts| > 1 then Some(parts[1]) else None,
      if |parts| > 2 then Some(parts[2]) else None)
  }

  /** A name part that survives the round trip: no `_` (the field separator)
      and no `.json` (where parsing cuts). */
  ghost predicate Clean(s: string) {
    '_' !in s && !Contains(s, JsonSuffix)
  }

  /** Round trip: parsing the base name of a snapshot recovers its parts, with
      the base being `extName-export` rather than `extName`. */
  lemma {:induction false} ParseSnapshotNameRoundTrip(extName: string, date: string, cuid: string)
    requires Clean(extName) && Clean(date) && Clean(cuid)
    ensures ParseFileName(SnapshotName(extName, date, cuid))
            == FileInfo(extName + "-export", Some(date), Some(cuid))
  {
    var base := extName + "-export";
    var stem := base + "_" + date + "_" + cuid;
    assert SnapshotName(extName, date, cuid) == stem + JsonSuffix + "";
    SnapshotStemHasNoSuffix(extName, date, cuid);
    StemBeforeSuffix(stem, "");
    assert '_' !in base;
    assert stem == base + ['_'] + (date + "_" + cuid);
    SplitLeadingField(base, '_', date + "_" + cuid);
    assert date + "_" + cuid == date + ['_'] + cuid;
    SplitLeadingField(date, '_', cuid);
    SplitWithoutSeparator(cuid, '_');
  }

  /** The part of a snapshot name before its suffix holds no `.json` of its
      own when none of the three parts does: the fixed separators `-export`
      and `_` cannot complete or start an occurrence across a seam. */
  lemma SnapshotStemHasNoSuffix(extName: string, date: string, cuid: string)
    requires !Contains(extName, JsonSuffix) && !Contains(date, JsonSuffix) && !Contains(cuid, JsonSuffix)
    ensures !Contains(extName + "-export" + "_" + date + "_" + cuid, JsonSuffix)
  {
    WithoutFirstCharNoOcc("-export", JsonSuffix);
    WithoutFirstCharNoOcc("_", JsonSuffix);
    var a1 := extName + "-export";
    ConcatNoOcc(extName, "-export", JsonSuffix);
    var a2 := a1 + "_";
    ConcatNoOcc(a1, "_", JsonSuffix);
    var a3 := a2 + date;
    ConcatNoOcc(a2, date, JsonSuffix);
    var a4 := a3 + "_";
    ConcatNoOcc(a3, "_", JsonSuffix);
    ConcatNoOcc(a4, cuid, JsonSuffix);
  }

  /** The stem of `stem + ".json" + rest` is `stem` whatever `rest` holds,
      provided `stem` holds no `.json` of its own: parsing cuts at the first
      occurrence. */
  lemma StemBeforeSuffix(stem: string, rest: string)
    requires !Contains(stem, JsonSuffix)
    ensures Stem(stem + JsonSuffix + rest) == stem
  {
    var name := stem + JsonSuffix + rest;
    var r := Stem(name);
    assert IsOccAt(name, JsonSuffix, |stem|) by {
      assert name[|stem|..|stem| + |JsonSuffix|] == JsonSuffix;
    }
    ShorterNoOcc(".jso", JsonSuffix);
    ConcatNoOcc(stem, ".jso", JsonSuffix);
    forall k: nat | k < |stem|
      ensures !IsOccAt(name, JsonSuffix, k)
    {
      if IsOccAt(name, JsonSuffix, k) {
        assert name[..|stem| + 4] == stem + ".jso";
        assert name[k..k + 5] == (stem + ".jso")[k..k + 5];
        assert IsOccAt(stem + ".jso", JsonSuffix, k);
      }
    }
  }

  /** Whatever follows the first `.json` of a name plays no part in parsing
      it: the name parses exactly like the text before that suffix. */
  lemma ParseIgnoresAfterSuffix(stem: string, rest: string)
    requires !Contains(stem, JsonSuffix)
    ensures ParseFileName(stem + JsonSuffix + rest) == ParseFileName(stem)
  {
    StemBeforeSuffix(stem, rest);
    assert Stem(stem) == stem;
  }
}

=== FILE: remote.dfy ===
/** The WebDAV server seen by the library: whether it answers, whether it
    accepts writes, whether the configured root directory exists, and the
    files listed in that directory. Writes are stamped with the caller's
    notion of the current time. */
module Remote {
  import opened Listing

  datatype Server = Server(online: bool, writable: bool, rootExists: bool, files: seq<RemoteFile>)

  /** Requests that read the root directory succeed. */
  predicate Readable(s: Server) {
    s.online && s.rootExists
  }

  /** Requests that write into the root directory succeed. */
  predicate Writable(s: Server) {
    Readable(s) && s.writable
  }

  /** The last `/`-separated segment of a path, as a listing reports it. */
  function BaseName(path: string): (name: string)
    ensures '/' !in name
    ensures |name| <= |path| && name == path[|path| - |name|..]
  {
    if |path| == 0 || path[|path| - 1] == '/' then ""
    else BaseName(path[..|path| - 1]) + [path[|path| - 1]]
  }

  /** A path whose last segment is `name` lists under that name. */
  lemma {:induction false} BaseNameOfChild(dir: string, name: string)
    requires '/' !in name
    ensures BaseName(dir + "/" + name) == name
    decreases |name|
  {
    if |name| == 0 {
      assert dir + "/" + name == dir + "/";
    } else {
      var path := dir + "/" + name;
      var init := name[..|name| - 1];
      assert path[|path| - 1] == name[|name| - 1];
      assert path[..|path| - 1] == dir + "/" + init;
      assert BaseName(path) == BaseName(dir + "/" + init) + [name[|name| - 1]];
      BaseNameOfChild(dir, init);
      assert name == init + [name[|name| - 1]];
    }
  }

  /** The listing without the file at `path`. */
  function Without(files: seq<RemoteFile>, path: string): (r: seq<RemoteFile>)
    ensures forall f :: f in r <==> f in files && f.filename != path
  {
    if |files| == 0 then []
    else if files[0].filename == path then Without(files[1..], path)
    else [files[0]] + Without(files[1..], path)
  }

  /** `putFileContents(path, data)`: the file at `path` now holds `data`,
      stamped with `now`; every other file is kept. */
  function Upload(files: seq<RemoteFile>, path: string, data: Bytes, now: int): (r: seq<RemoteFile>)
    ensures |r| > 0 && r[|r| - 1] == RemoteFile(path, BaseName(path), now, data)
    ensures forall f :: f in r[..|r| - 1] <==> f in files && f.filename != path
  {
    Without(files, path) + [RemoteFile(path, BaseName(path), now, data)]
  }

  /** `moveFile(file.filename, to)`: the file's bytes now live at `to`, with a
      fresh modification time: this model assumes the server stamps a move
      with the current time, as it does a put; nothing is left at the old
      path. */
  function MoveTo(files: seq<RemoteFile>, file: RemoteFile, to: string, now: int): (r: seq<RemoteFile>)
    ensures |r| > 0 && r[|r| - 1] == RemoteFile(to, BaseName(to), now, file.content)
    ensures forall f :: f in r[..|r| - 1] <==> f in files && f.filename != file.filename && f.filename != to
  {
    Upload(Without(files, file.filename), to, file.content, now)
  }
}

=== FILE: storage.dfy ===
/** The persistent key-value store the library keeps its settings in
    (`chrome.storage.local` or `localStorage`, both holding JSON values), seen
    as an immutable map, together with the two JavaScript conversions the
    library applies to stored values: truthiness (`if (x)`, `x || y`) and
    template-string conversion (`${x}`). */
module Storage {
  import opened Common

  /** The remote endpoint's credentials, as `saveConfig` stores them. */
  datatype Config = Config(url: string, username: string, password: string)

  /** A JSON value held by the store. Numbers are integers; JSON `null` is
      modelled as an absent key, which the store reports the same way. */
  datatype Value =
    | Text(s: string)
    | Number(n: int)
    | Boolean(b: bool)
    | Record(config: Config)

  type Store = map<string, Value>

  /** `storage.getItem(key)`: the stored value, `None` for a missing key. */
  function GetItem(store: Store, key: string): Option<Value> {
    if key in store then Some(store[key]) else None
  }

  /** `storage.setItem(key, value)`. */
  function SetItem(store: Store, key: string, v: Value): Store {
    store[key := v]
  }

  /** `storage.removeItem(key)`. */
  function RemoveItem(store: Store, key: string): Store {
    store - {key}
  }

  /** JavaScript truthiness of a read result: `undefined`/`null`, `""`, `0`
      and `false` are falsy; every object is truthy. */
  predicate Truthy(v: Option<Value>) {
    match v
    case None => false
    case Some(Text(s)) => s != ""
    case Some(Number(n)) => n != 0
    case Some(Boolean(b)) => b
    case Some(Record(_)) => true
  }

  function DigitChar(d: nat): char
    requires d < 10
  {
    "0123456789"[d]
  }

  function NatToDecimal(n: nat): string
    decreases n
  {
    if n < 10 then [DigitChar(n)] else NatToDecimal(n / 10) + [DigitChar(n % 10)]
  }

  /** `${v}`: how a stored value reads inside a template string. */
  function JsString(v: Value): string {
    match v
    case Text(s) => s
    case Number(n) => if n < 0 then "-" + NatToDecimal(-n) else NatToDecimal(n)
    case Boolean(b) => if b then "true" else "false"
    case Record(_) => "[object Object]"
  }
}

=== FILE: strings.dfy ===
/** The string operations the synchronisation library relies on, with the
    meaning JavaScript gives them: `indexOf`, `split(pat)[0]` and `split` on a
    one-character separator. */
module Strings {
  import opened Common

  /** `pat` occurs in `s` starting at index `i`. */
  predicate IsOccAt(s: string, pat: string, i: nat) {
    i + |pat| <= |s| && s[i..i + |pat|] == pat
  }

  /** `pat` occurs somewhere in `s`. */
  ghost predicate Contains(s: string, pat: string) {
    exists i: nat :: IsOccAt(s, pat, i)
  }

  /** First index at or after `from` where `pat` occurs (`s.indexOf(pat, from)`),
      or `None` for JavaScript's `-1`. */
  function IndexFrom(s: string, pat: string, from: nat): (r: Option<nat>)
    decreases |s| - from
    ensures r.Some? ==> from <= r.value && IsOccAt(s, pat, r.value)
    ensures r.Some? ==> forall k: nat :: from <= k < r.value ==> !IsOccAt(s, pat, k)
    ensures r.None? ==> forall k: nat :: from <= k ==> !IsOccAt(s, pat, k)
  {
    if from + |pat| > |s| then None
    else if s[from..from + |pat|] == pat then Some(from)
    else IndexFrom(s, pat, from + 1)
  }

  /** `s.split(pat)[0]`: the text before the first occurrence of `pat`, or the
      whole of `s` when `pat` does not occur. */
  function BeforeFirst(s: string, pat: string): (r: string)
    requires |pat| > 0
    ensures r <= s
    ensures forall k: nat :: k < |r| ==> !IsOccAt(s, pat, k)
    ensures r == s || IsOccAt(s, pat, |r|)
  {
    match IndexFrom(s, pat, 0)
    case Some(i) => s[..i]
    case None => s
  }

  /** The fields of `parts` glued back together with `sep` between them. */
  function Join(parts: seq<string>, sep: char): string
    requires |parts| >= 1
  {
    if |parts| == 1 then parts[0] else parts[0] + [sep] + Join(parts[1..], sep)
  }

  /** The leading fields of a join, and the separator after the first. */
  lemma JoinLeadingFields(parts: seq<string>, sep: char)
    requires |parts| >= 1
    ensures |parts| >= 2 ==> Join(parts, sep) == parts[0] + [sep] + Join(parts[1..], sep)
    ensures |parts| >= 2 ==> Join(parts, sep)[|parts[0]|] == sep
    ensures |parts| >= 3 ==> Join(parts, sep) == parts[0] + [sep] + parts[1] + [sep] + Join(parts[2..], sep)
  {
    if |parts| >= 3 {
      assert parts[1..][0] == parts[1];
      assert parts[1..][1..] == parts[2..];
    }
  }

  /** `s.split(sep)` for a one-character separator: never empty, no field
      holds the separator, and joining the fields gives `s` back. */
  function Split(s: string, sep: char): (parts: seq<string>)
    ensures |parts| >= 1
    ensures forall i :: 0 <= i < |parts| ==> sep !in parts[i]
    ensures Join(parts, sep) == s
  {
    if |s| == 0 then [""]
    else
      var rest := Split(s[1..], sep);
      if s[0] == sep then
        assert s == [sep] + s[1..];
        [""] + rest
      else
        assert s == [s[0]] + s[1..];
        [[s[0]] + rest[0]] + rest[1..]
  }

  /** A string without the separator is a single field. */
  lemma {:induction false} SplitWithoutSeparator(s: string, sep: char)
    requires sep !in s
    ensures Split(s, sep) == [s]
  {
    if |s| > 0 {
      SplitWithoutSeparator(s[1..], sep);
    }
  }

  /** A leading field free of the separator is split off as the first field. */
  lemma {:induction false} SplitLeadingField(a: string, sep: char, b: string)
    requires sep !in a
    ensures Split(a + [sep] + b, sep) == [a] + Split(b, sep)
  {
    if |a| == 0 {
      assert a + [sep] + b == [sep] + b;
      assert ([sep] + b)[1..] == b;
    } else {
      SplitLeadingField(a[1..], sep, b);
      assert (a + [sep] + b)[1..] == a[1..] + [sep] + b;
      assert [a[0]] + a[1..] == a;
    }
  }

  /** A string whose characters avoid the first character of `pat` does not
      contain `pat`. */
  lemma WithoutFirstCharNoOcc(s: string, pat: string)
    requires |pat| > 0 && pat[0] !in s
    ensures !Contains(s, pat)
  {
  }

  /** A string shorter than `pat` cannot contain it. */
  lemma ShorterNoOcc(s: string, pat: string)
    requires |s| < |pat|
    ensures !Contains(s, pat)
  {
  }

  /** Gluing two strings that do not contain `pat` gives one that does not,
      provided no occurrence can straddle the seam: either the left part does
      not end in a proper prefix's last character or the right part does not
      start with a proper suffix's first character. */
  lemma ConcatNoOcc(a: string, b: string, pat: string)
    requires |pat| > 0
    requires !Contains(a, pat) && !Contains(b, pat)
    requires |a| == 0 || |b| == 0 || a[|a| - 1] !in pat[..|pat| - 1] || b[0] !in pat[1..]
    ensures !Contains(a + b, pat)
  {
    var s := a + b;
    forall i: nat | IsOccAt(s, pat, i)
      ensures false
    {
      if i + |pat| <= |a| {
        assert s[i..i + |pat|] == a[i..i + |pat|];
        assert IsOccAt(a, pat, i);
      } else if i >= |a| {
        assert s[|a|..] == b;
        assert s[i..i + |pat|] == s[|a|..][i - |a|..i - |a| + |pat|];
        assert IsOccAt(b, pat, i - |a|);
      } else {
        OccCharAt(s, pat, i, |a| - 1 - i);
        OccCharAt(s, pat, i, |a| - i);
      }
    }
  }

  /** The characters of an occurrence are those of the pattern. */
  lemma OccCharAt(s: string, pat: string, i: nat, k: nat)
    requires IsOccAt(s, pat, i) && k < |pat|
    ensures s[i + k] == pat[k]
  {
    assert s[i..i + |pat|][k] == s[i + k];
  }
}

=== FILE: sync.dfy ===
/** The sync engine (`src/sync.ts`): a status field, a repeating timer, and a
    "received" event, driven by ticks of the conflict resolver. The engine
    only consumes a tick's settled outcome, so each operation takes it as a
    parameter. The host's timer table is part of the state: `setInterval`
    hands out fresh positive handles and `clearInterval` removes one. */
module Sync {
  import opened Common
  import opened Storage
  import opened Webdav

  /** `SYNC_STATUS`, plus `Unset` for the field before its first assignment
      (it is declared without an initial value). */
  datatype Status = Unset | Wait | Begin | Success | Fail

  /** The event types of `EventTypes`; only `Received` is ever emitted. */
  datatype Event = Received | Uploaded

  /** A `Sync` instance and the host timers it drives.
      - `statusWrites`: every value assigned to `syncStatus`, in order;
      - `syncTimer`: the handle stored in the field (0 before any timer);
      - `syncInterval`: the field as the constructor set it;
      - `maxSyncInterval`: `WEBDAV_MAX_SYNC_INTERVAL` (its definition,
        `src/constant.ts`, is not part of this model);
      - `timers`: active repeating timers, handle to period;
      - `nextHandle`: the handle the next `setInterval` returns;
      - `emitted`: events emitted to subscribers, in order. */
  datatype Engine = Engine(
    status: Status,
    statusWrites: seq<Status>,
    syncTimer: nat,
    syncInterval: int,
    maxSyncInterval: int,
    timers: map<nat, int>,
    nextHandle: nat,
    emitted: seq<Event>)

  /** Between operations: the engine owns at most the timer whose handle it
      holds, a timer is running exactly when the engine is not idle, no tick
      is in flight, and handles yet to be issued are fresh. */
  ghost predicate Inv(e: Engine) {
    && e.timers.Keys <= {e.syncTimer}
    && (e.timers == map[] <==> e.status == Unset || e.status == Wait)
    && e.status != Begin
    && 0 < e.nextHandle && e.syncTimer < e.nextHandle
  }

  /** The field initialisers and the interval choice of the constructor:
      `options?.syncInterval ?? WEBDAV_MAX_SYNC_INTERVAL`, which keeps any
      supplied number, zero included. */
  function New(syncInterval: Option<int>, maxSyncInterval: int): (e: Engine)
    ensures Inv(e) && e.status == Unset && e.timers == map[] && e.emitted == []
    ensures syncInterval.Some? ==> e.syncInterval == syncInterval.value
    ensures syncInterval.None? ==> e.syncInterval == maxSyncInterval
  {
    Engine(Unset, [], 0, syncInterval.GetOr(maxSyncInterval), maxSyncInterval, map[], 1, [])
  }

  /** `stopSync()`: clears the held timer and sets `WAIT`. Other timers are
      not touched; an engine in its invariant is left with none at all. */
  function StopSync(e: Engine): (r: Engine)
    ensures r.status == Wait && r.statusWrites == e.statusWrites + [Wait]
    ensures e.syncTimer !in r.timers
    ensures forall h :: h != e.syncTimer ==> (h in r.timers <==> h in e.timers)
    ensures Inv(e) ==> Inv(r) && r.timers == map[]
    ensures r.emitted == e.emitted && r.syncInterval == e.syncInterval && r.nextHandle == e.nextHandle
  {
    e.(timers := e.timers - {e.syncTimer}, status := Wait, statusWrites := e.statusWrites + [Wait])
  }

  /** `runDataSyncTick()`: a resolved tick sets `SUCCESS` and emits
      "received" exactly once if data came in, never otherwise; a rejected
      one is caught, sets `FAIL`, emits nothing. Either way the timer is left
      as it was, so a failing engine keeps polling. */
  function RunDataSyncTick(e: Engine, tick: Completion<bool>): (r: Engine)
    ensures tick.Normal? ==> r.status == Success
    ensures tick.Abrupt? ==> r.status == Fail
    ensures r.statusWrites == e.statusWrites + [r.status]
    ensures r.emitted == e.emitted + (if tick == Normal(true) then [Received] else [])
    ensures r.timers == e.timers && r.syncTimer == e.syncTimer && r.nextHandle == e.nextHandle
    ensures r.syncInterval == e.syncInterval && r.maxSyncInterval == e.maxSyncInterval
    ensures Inv(e) && e.timers != map[] ==> Inv(r)
  {
    match tick
    case Normal(received) =>
      var notified := if received then e.emitted + [Received] else e.emitted;
      e.(emitted := notified, status := Success, statusWrites := e.statusWrites + [Success])
    case Abrupt(_) =>
      e.(status := Fail, statusWrites := e.statusWrites + [Fail])
  }

  /** `getSyncInterval()`: `this.syncInterval || WEBDAV_MAX_SYNC_INTERVAL`. A
      zero interval falls back to the maximum; any other value is used as it
      is, without clamping. */
  function GetSyncInterval(e: Engine): (interval: int)
    ensures e.syncInterval != 0 ==> interval == e.syncInterval
    ensures e.syncInterval == 0 ==> interval == e.maxSyncInterval
  {
    if e.syncInterval != 0 then e.syncInterval else e.maxSyncInterval
  }

  /** The period a new engine polls at: the supplied interval unless it is
      absent or zero, then the maximum. */
  lemma EffectiveInterval(syncInterval: Option<int>, maxSyncInterval: int)
    ensures GetSyncInterval(New(syncInterval, maxSyncInterval))
            == if syncInterval.Some? && syncInterval.value != 0 then syncInterval.value else maxSyncInterval
  {
  }

  /** One effective invocation of the throttled `startSync`: stop the previous
      timer, set `BEGIN`, run one tick, then start exactly one repeating timer
      at the engine's interval, whatever the tick's outcome. */
  function StartSync(e: Engine, tick: Completion<bool>): (r: Engine)
    requires Inv(e)
    ensures r.statusWrites == e.statusWrites + [Wait, Begin, r.status]
    ensures r.status == if tick.Normal? then Success else Fail
    ensures e.syncTimer !in r.timers
    ensures r.timers == map[r.syncTimer := GetSyncInterval(e)]
    ensures r.emitted == e.emitted + (if tick == Normal(true) then [Received] else [])
    ensures Inv(r)
  {
    var stopped := StopSync(e);
    var begun := stopped.(status := Begin, statusWrites := stopped.statusWrites + [Begin]);
    var ticked := RunDataSyncTick(begun, tick);
    var handle := ticked.nextHandle;
    var polling := ticked.(syncTimer := handle,
                           timers := ticked.timers[handle := GetSyncInterval(ticked)],
                           nextHandle := handle + 1);
    assert handle in polling.timers;
    polling
  }

  /** A firing of the repeating timer `handle`: one tick if the timer is
      still active, nothing once it has been cleared. */
  function OnTimer(e: Engine, handle: nat, tick: Completion<bool>): (r: Engine)
    requires Inv(e)
    ensures handle !in e.timers ==> r == e
    ensures handle in e.timers ==> r == RunDataSyncTick(e, tick)
    ensures handle in e.timers ==> r.status == (if tick.Normal? then Success else Fail)
    ensures handle in e.timers ==>
              r.emitted == e.emitted + (if tick == Normal(true) then [Received] else [])
    ensures r.timers == e.timers
    ensures Inv(r)
  {
    if handle in e.timers then RunDataSyncTick(e, tick) else e
  }

  /** `tryStartSync()`: `startSync` runs exactly when `isWebDavConfiged()`
      answered true; otherwise the engine is unchanged. */
  function TryStartSync(e: Engine, configured: bool, tick: Completion<bool>): (r: Engine)
    requires Inv(e)
    ensures !configured ==> r == e
    ensures configured ==> r.status in {Success, Fail} && |r.timers| == 1
    ensures configured ==> r.statusWrites == e.statusWrites + [Wait, Begin, r.status]
    ensures Inv(r)
  {
    if configured then StartSync(e, tick) else e
  }

  /** `isAutoSync()`: the stored auto-sync value is exactly the number 1. */
  function IsAutoSync(store: Store, autoSyncKey: string): (r: bool)
    ensures r <==> autoSyncKey in store && store[autoSyncKey] == Number(1)
  {
    GetItem(store, autoSyncKey) == Some(Number(1))
  }

  /** Strict equality with 1 is not truthiness: `true`, `2` or `"1"` stored
      under the key leave auto-sync off. */
  lemma AutoSyncIsNotTruthiness(store: Store, autoSyncKey: string, v: Value)
    requires v in {Boolean(true), Number(2), Text("1")}
    ensures Truthy(Some(v)) && !IsAutoSync(store[autoSyncKey := v], autoSyncKey)
  {
  }

  /** The database-change listener of `setupAutoSync`: with auto-sync on it
      tries to start syncing, otherwise nothing happens. */
  function OnDbUpdate(e: Engine, store: Store, autoSyncKey: string, configured: bool,
                      tick: Completion<bool>): (r: Engine)
    requires Inv(e)
    ensures !IsAutoSync(store, autoSyncKey) ==> r == e
    ensures IsAutoSync(store, autoSyncKey) ==> r == TryStartSync(e, configured, tick)
    ensures Inv(r)
  {
    if IsAutoSync(store, autoSyncKey) then TryStartSync(e, configured, tick) else e
  }

  /** The constructor: field initialisers, then `tryStartSync()`. */
  function Construct(syncInterval: Option<int>, maxSyncInterval: int, configured: bool,
                     tick: Completion<bool>): (e: Engine)
    ensures Inv(e)
    ensures !configured ==> e.status == Unset && e.timers == map[]
    ensures configured ==> e.timers == map[e.syncTimer := GetSyncInterval(e)]
    ensures e.emitted == (if configured && tick == Normal(true) then [Received] else [])
  {
    TryStartSync(New(syncInterval, maxSyncInterval), configured, tick)
  }
}

=== FILE: system.dfy ===
/** The sync engine driven by the real conflict-resolver tick: what one
    `startSync` / `tryStartSync` does to a device, its server and the
    engine together, and how a snapshot travels from one device to another. */
module System {
  import opened Common
  import opened Storage
  import Cuid
  import opened Naming
  import opened Listing
  import opened Remote
  import opened Webdav
  import opened Sync
  import opened TickProperties

  /** One device running a sync engine against one server. */
  datatype World = World(engine: Engine, device: Device, server: Server)

  /** Which answer `tryStartSync` gets from `isWebDavConfiged()`. */
  datatype ConfigCheck =
      /** The method as written: the un-awaited Promise is always truthy. */
    | AsWritten
      /** The intended check: a truthy configuration is stored. */
    | StoreHolds

  function Configured(check: ConfigCheck, store: Store): (r: bool)
    ensures check == AsWritten ==> r
    ensures check == StoreHolds ==> (r <==> Truthy(GetItem(store, WebdavConfigKey)))
  {
    match check
    case AsWritten => IsWebDavConfigedAsWritten(store)
    case StoreHolds => IsWebDavConfiged(store)
  }

  /** `startSync` whose tick is `createDataSyncTick` on this world, with the
      given content test (`ObjectTruthiness` is the code as written). The
      engine ends polling with exactly one timer, reports `SUCCESS` exactly
      when the tick resolved, and emits "received" at most once, and only
      when the local database now holds a snapshot that was on the server. */
  function StartSyncOn(test: ContentTest, w: World, env: Env, date: string, now: int, generated: Cuid.Uuid): (r: World)
    requires Inv(w.engine)
    ensures Inv(r.engine) && |r.engine.timers| == 1
    ensures r.engine.status == Success || r.engine.status == Fail
    ensures r.engine.statusWrites == w.engine.statusWrites + [Wait, Begin, r.engine.status]
    ensures r.engine.emitted == w.engine.emitted
            || (&& r.engine.emitted == w.engine.emitted + [Received]
                && exists f :: f in w.server.files && r.device.db == f.content)
    ensures r.device.cuidKey == w.device.cuidKey
    ensures r.device.store - {w.device.cuidKey} == w.device.store - {w.device.cuidKey}
  {
    var tick := Tick(test, env, w.device, w.server, date, now, generated);
    World(StartSync(w.engine, tick.outcome), tick.device, tick.server)
  }

  /** `tryStartSync()` on this world: nothing at all happens unless the
      configuration check answers true. */
  function TryStartSyncOn(check: ConfigCheck, test: ContentTest, w: World, env: Env, date: string, now: int,
                          generated: Cuid.Uuid): (r: World)
    requires Inv(w.engine)
    ensures !Configured(check, w.device.store) ==> r == w
    ensures Configured(check, w.device.store) ==> |r.engine.timers| == 1
    ensures Inv(r.engine)
  {
    if Configured(check, w.device.store) then StartSyncOn(test, w, env, date, now, generated) else w
  }

  /** A device with neither a cached client nor a stored configuration: the
      tick rejects with "not configured" and touches nothing. */
  lemma TickUnconfigured(test: ContentTest, env: Env, device: Device, server: Server,
                         date: string, now: int, generated: Cuid.Uuid)
    requires device.client.None? && WebdavConfigKey !in device.store
    ensures Tick(test, env, device, server, date, now, generated) == Run(Abrupt(NotConfigured), device, server, [])
  {
  }

  /** The as-written `tryStartSync` on an unconfigured device: `startSync`
      runs anyway, the engine lands in `FAIL`, and a repeating timer keeps
      failing; the device and server are untouched. */
  lemma UnconfiguredStartAsWritten(w: World, env: Env, date: string, now: int, generated: Cuid.Uuid)
    requires Inv(w.engine)
    requires w.device.client.None? && WebdavConfigKey !in w.device.store
    ensures var r := TryStartSyncOn(AsWritten, ObjectTruthiness, w, env, date, now, generated);
            && r.engine.status == Fail && |r.engine.timers| == 1
            && r.device == w.device && r.server == w.server
  {
    TickUnconfigured(ObjectTruthiness, env, w.device, w.server, date, now, generated);
  }

  /** With the intended check, an unconfigured device does not start
      syncing: no status change, no timer. */
  lemma UnconfiguredStartIntended(test: ContentTest, w: World, env: Env, date: string, now: int,
                                  generated: Cuid.Uuid)
    requires Inv(w.engine) && w.engine.status == Unset
    requires WebdavConfigKey !in w.device.store
    ensures var r := TryStartSyncOn(StoreHolds, test, w, env, date, now, generated);
            && r == w && r.engine.timers == map[]
  {
  }

  /** First sync against an empty remote: `SUCCESS`, no "received", one
      snapshot on the server named with this device's id, one timer. Holds
      under either content test. */
  lemma FirstSyncOnEmptyRemote(test: ContentTest, w: World, env: Env, date: string, now: int, generated: Cuid.Uuid)
    requires Inv(w.engine) && Healthy(w.device, w.server) && w.server.files == []
    ensures var r := StartSyncOn(test, w, env, date, now, generated);
            var path := OwnPath(env, w.device, date, generated);
            && r.engine.status == Success
            && r.engine.emitted == w.engine.emitted
            && r.server.files == [RemoteFile(path, BaseName(path), now, w.device.db)]
            && r.device.db == w.device.db
  {
    TickOnEmptyListing(test, env, w.device, w.server, date, now, generated);
  }

  /** A sync that finds another device's non-empty snapshot on top: `SUCCESS`,
      "received" emitted exactly once, and the local database is that
      snapshot. Holds under either content test. */
  lemma SyncPullsForeignSnapshot(test: ContentTest, w: World, env: Env, date: string, now: int, generated: Cuid.Uuid)
    requires Inv(w.engine) && Healthy(w.device, w.server) && |w.server.files| > 0
    requires !OwnedByDevice(Latest(w.server.files), w.device, generated)
    requires |Latest(w.server.files).content| > 0
    ensures var r := StartSyncOn(test, w, env, date, now, generated);
            && r.engine.status == Success
            && r.engine.emitted == w.engine.emitted + [Received]
            && r.device.db == Latest(w.server.files).content
  {
    TickOnForeignLatest(test, env, w.device, w.server, date, now, generated);
  }

  /** The code as written, on another device's zero-byte snapshot on top:
      the empty snapshot is imported; with the import always succeeding, as
      this model has it, it replaces the local database, "received" is
      emitted and the engine reports `SUCCESS`. */
  lemma EmptyForeignSnapshotReceivedAsWritten(w: World, env: Env, date: string, now: int,
                                               generated: Cuid.Uuid)
    requires Inv(w.engine) && Healthy(w.device, w.server) && |w.server.files| > 0
    requires !OwnedByDevice(Latest(w.server.files), w.device, generated)
    requires Latest(w.server.files).content == []
    ensures var r := StartSyncOn(ObjectTruthiness, w, env, date, now, generated);
            && r.engine.status == Success
            && r.engine.emitted == w.engine.emitted + [Received]
            && r.device.db == []
  {
    EmptyForeignLatestImportedAsWritten(env, w.device, w.server, date, now, generated);
  }

  /** The same situation with the intended content test: the engine reports
      `SUCCESS` without emitting anything, and the local database and the
      server are unchanged. */
  lemma EmptyForeignSnapshotIgnored(w: World, env: Env, date: string, now: int, generated: Cuid.Uuid)
    requires Inv(w.engine) && Healthy(w.device, w.server) && |w.server.files| > 0
    requires !OwnedByDevice(Latest(w.server.files), w.device, generated)
    requires Latest(w.server.files).content == []
    ensures var r := StartSyncOn(NonEmpty, w, env, date, now, generated);
            && r.engine.status == Success
            && r.engine.emitted == w.engine.emitted
            && r.device.db == w.device.db
            && r.server.files == w.server.files
  {
    TickOnEmptyForeignLatest(env, w.device, w.server, date, now, generated);
  }

  /** A one-element listing's latest file is its element. */
  lemma LatestOfOne(f: RemoteFile)
    ensures Latest([f]) == f
  {
    SortFilesLatestFirst([f]);
  }

  /** Last writer wins across devices: device A syncs against an empty
      remote, then device B, whose id differs, syncs; B's database becomes
      A's, and B's tick reports new data, under either content test. */
  lemma SnapshotPropagates(test: ContentTest, env: Env, a: Device, b: Device, server: Server,
                           date: string, now1: int, now2: int, genA: Cuid.Uuid, genB: Cuid.Uuid)
    requires Healthy(a, server) && server.files == []
    requires b.client.None? && RestoreConfig(b.store).Some? && RestoreConfig(b.store).value.Record?
    requires |a.db| > 0
    requires Clean(env.extName) && '/' !in env.extName
    requires Clean(date) && '/' !in date
    requires DeviceId(a, genA).Text? && Clean(DeviceId(a, genA).s) && '/' !in DeviceId(a, genA).s
    requires DeviceId(b, genB) != DeviceId(a, genA)
    ensures var ra := Tick(test, env, a, server, date, now1, genA);
            var rb := Tick(test, env, b, ra.server, date, now2, genB);
            && ra.outcome == Normal(false)
            && rb.outcome == Normal(true)
            && rb.device.db == a.db
  {
    var ra := Tick(test, env, a, server, date, now1, genA);
    TickOnEmptyListing(test, env, a, server, date, now1, genA);
    var id := DeviceId(a, genA).s;
    var path := OwnPath(env, a, date, genA);
    assert path == DataFullFileName(env.rootPath, env.extName, date, id);
    var f := RemoteFile(path, BaseName(path), now1, a.db);
    assert ra.server.files == [f];
    LatestOfOne(f);
    OwnPathParsesToId(env, date, id);
    assert !OwnedByDevice(Latest(ra.server.files), b, genB);
    TickOnForeignLatest(test, env, b, ra.server, date, now2, genB);
  }
}

=== FILE: tick_lemmas.dfy ===
/** What one tick of the conflict resolver does in each case of the
    last-writer-wins protocol, and what two ticks in a row do. */
module TickProperties {
  import opened Common
  import opened Storage
  import Cuid
  import opened Naming
  import opened Listing
  import opened Remote
  import opened Webdav

  /** The device can talk to the server: it answers and accepts writes, and
      either a client is cached and the root directory exists, or a
      configuration record is stored to build a client from. */
  ghost predicate Healthy(device: Device, server: Server) {
    && server.online && server.writable
    && (device.client.Some? ==> server.rootExists)
    && (device.client.None? ==> RestoreConfig(device.store).Some? && RestoreConfig(device.store).value.Record?)
  }

  /** The effects of connecting: the root directory is created when a client
      is built and the root is missing. */
  function ConnectEffects(env: Env, device: Device, server: Server): seq<Effect> {
    if device.client.None? && !server.rootExists then [MakeDirectory(env.rootPath)] else []
  }

  /** The id this device reports when it next asks for it. */
  function DeviceId(device: Device, generated: Cuid.Uuid): Value {
    Cuid.GetCuid(device.cuidKey, device.store, generated).id
  }

  /** The latest file of the listing, as the tick picks it. */
  function Latest(files: seq<RemoteFile>): RemoteFile
    requires |files| > 0
  {
    SortFilesLatestFirst(files);
    SortFiles(files)[0]
  }

  /** The latest file's cuid field names this device. */
  ghost predicate OwnedByDevice(file: RemoteFile, device: Device, generated: Cuid.Uuid) {
    IsCreatedBy(file, device, generated).0
  }

  /** This device's snapshot path for `date`. */
  function OwnPath(env: Env, device: Device, date: string, generated: Cuid.Uuid): string {
    DataFullFileName(env.rootPath, env.extName, date, JsString(DeviceId(device, generated)))
  }

  /** On a healthy device, getting a client succeeds, caches it, and leaves
      the root directory in place. */
  lemma GetClientWhenHealthy(env: Env, device: Device, server: Server)
    requires Healthy(device, server)
    ensures var r := GetClient(env, device, server);
            && r.outcome.Normal? && r.outcome.value.Some?
            && r.device == device.(client := r.outcome.value)
            && r.server == server.(rootExists := true)
            && r.effects == ConnectEffects(env, device, server)
  {
  }

  /** On a healthy device the listing succeeds with the server's files,
      after connecting. */
  lemma ListingWhenHealthy(env: Env, device: Device, server: Server)
    requires Healthy(device, server)
    ensures var l := RestoreData(env, device, server);
            && l.outcome == Normal(server.files)
            && l.device.client.Some? && l.device == device.(client := l.device.client)
            && l.server == server.(rootExists := true)
            && l.effects == ConnectEffects(env, device, server)
  {
    GetClientWhenHealthy(env, device, server);
  }

  /** On a healthy device a tick is the connection's effects followed by
      resolving the sorted listing from the connected state. */
  lemma TickWhenHealthy(test: ContentTest, env: Env, device: Device, server: Server,
                        date: string, now: int, generated: Cuid.Uuid)
    requires Healthy(device, server)
    ensures var l := RestoreData(env, device, server);
            var rest := Resolve(test, env, SortFiles(server.files), l.device, l.server, date, now, generated);
            && l.device.client.Some? && l.device == device.(client := l.device.client)
            && l.server == server.(rootExists := true)
            && Tick(test, env, device, server, date, now, generated)
               == rest.(effects := ConnectEffects(env, device, server) + rest.effects)
  {
    ListingWhenHealthy(env, device, server);
  }

  /** With a client cached and a writable server, `saveData` uploads the
      local database under the device's id and does nothing else. */
  lemma UploadWhenConnected(env: Env, device: Device, server: Server, date: string, now: int,
                            generated: Cuid.Uuid)
    requires device.client.Some? && Writable(server)
    ensures var id := Cuid.GetCuid(device.cuidKey, device.store, generated);
            var path := DataFullFileName(env.rootPath, env.extName, date, JsString(id.id));
            SaveData(env, device, server, date, now, generated)
            == Run(Normal(()), device.(store := id.store),
                   server.(files := Upload(server.files, path, device.db, now)), [PutFile(path, device.db)])
  {
  }

  /** With a readable and writable server and content the test accepts, a
      pull imports the content and moves the file to the device's name. */
  lemma PullWhenConnected(test: ContentTest, env: Env, latest: RemoteFile, device: Device, server: Server,
                          date: string, now: int, generated: Cuid.Uuid)
    requires Writable(server) && Accepts(test, latest.content)
    ensures var id := Cuid.GetCuid(device.cuidKey, device.store, generated);
            var dest := DataFullFileName(env.rootPath, env.extName, date, JsString(id.id));
            PullLatest(test, env, latest, device, server, date, now, generated)
            == Run(Normal(true), device.(db := latest.content, store := id.store),
                   server.(files := MoveTo(server.files, latest, dest, now)),
                   [ImportData(latest.content), MoveFile(latest.filename, dest)])
  {
  }

  /** On a healthy device with a non-empty listing, a tick connects and then
      either uploads (the latest file is the device's own) or pulls the
      latest file. */
  lemma TickResolvesLatest(test: ContentTest, env: Env, device: Device, server: Server,
                           date: string, now: int, generated: Cuid.Uuid)
    requires Healthy(device, server) && |server.files| > 0
    ensures var l := RestoreData(env, device, server);
            var latest := Latest(server.files);
            var owned := IsCreatedBy(latest, l.device, generated);
            var rest := if owned.0 then NothingReceived(SaveData(env, owned.1, l.server, date, now, generated))
                        else PullLatest(test, env, latest, owned.1, l.server, date, now, generated);
            && l.device.client.Some? && l.device == device.(client := l.device.client)
            && l.server == server.(rootExists := true)
            && (owned.0 <==> OwnedByDevice(latest, device, generated))
            && Tick(test, env, device, server, date, now, generated)
               == rest.(effects := ConnectEffects(env, device, server) + rest.effects)
  {
    TickWhenHealthy(test, env, device, server, date, now, generated);
    SortFilesLatestFirst(server.files);
  }

  /** Empty listing: the tick uploads exactly one snapshot, named with this
      device's id and holding the local export, imports nothing and reports
      no new data. */
  lemma TickOnEmptyListing(test: ContentTest, env: Env, device: Device, server: Server,
                           date: string, now: int, generated: Cuid.Uuid)
    requires Healthy(device, server) && server.files == []
    ensures var r := Tick(test, env, device, server, date, now, generated);
            var path := OwnPath(env, device, date, generated);
            && r.outcome == Normal(false)
            && r.effects == ConnectEffects(env, device, server) + [PutFile(path, device.db)]
            && r.device.db == device.db
            && r.server.files == [RemoteFile(path, BaseName(path), now, device.db)]
            && device.cuidKey in r.device.store
            && r.device.store[device.cuidKey] == DeviceId(device, generated)
            && Healthy(r.device, r.server)
  {
    TickWhenHealthy(test, env, device, server, date, now, generated);
    var l := RestoreData(env, device, server);
    assert SortFiles(server.files) == [];
    UploadWhenConnected(env, l.device, l.server, date, now, generated);
  }

  /** Latest file owned by this device: the tick uploads a fresh snapshot
      and neither imports nor moves anything; no new data. */
  lemma TickOnOwnLatest(test: ContentTest, env: Env, device: Device, server: Server,
                        date: string, now: int, generated: Cuid.Uuid)
    requires Healthy(device, server) && |server.files| > 0
    requires OwnedByDevice(Latest(server.files), device, generated)
    ensures var r := Tick(test, env, device, server, date, now, generated);
            var path := OwnPath(env, device, date, generated);
            && r.outcome == Normal(false)
            && r.effects == ConnectEffects(env, device, server) + [PutFile(path, device.db)]
            && r.device.db == device.db
            && r.server.files == Upload(server.files, path, device.db, now)
            && Healthy(r.device, r.server)
  {
    TickResolvesLatest(test, env, device, server, date, now, generated);
    var l := RestoreData(env, device, server);
    var owned := IsCreatedBy(Latest(server.files), l.device, generated);
    Cuid.GetCuidIdempotent(device.cuidKey, device.store, generated, generated);
    UploadWhenConnected(env, owned.1, l.server, date, now, generated);
  }

  /** Latest file owned by another device and holding data: the tick imports
      exactly that data, moves the file to this device's snapshot name, and
      reports new data. */
  lemma TickOnForeignLatest(test: ContentTest, env: Env, device: Device, server: Server,
                            date: string, now: int, generated: Cuid.Uuid)
    requires Healthy(device, server) && |server.files| > 0
    requires !OwnedByDevice(Latest(server.files), device, generated)
    requires |Latest(server.files).content| > 0
    ensures var r := Tick(test, env, device, server, date, now, generated);
            var latest := Latest(server.files);
            var path := OwnPath(env, device, date, generated);
            && r.outcome == Normal(true)
            && r.device.db == latest.content
            && r.effects == ConnectEffects(env, device, server)
                            + [ImportData(latest.content), MoveFile(latest.filename, path)]
            && r.server.files == MoveTo(server.files, latest, path, now)
            && r.device.cuidKey == device.cuidKey && device.cuidKey in r.device.store
            && r.device.store[device.cuidKey] == DeviceId(device, generated)
            && r.device.client.Some? && Healthy(r.device, r.server)
  {
    TickResolvesLatest(test, env, device, server, date, now, generated);
    var l := RestoreData(env, device, server);
    var owned := IsCreatedBy(Latest(server.files), l.device, generated);
    Cuid.GetCuidIdempotent(device.cuidKey, device.store, generated, generated);
    PullWhenConnected(test, env, Latest(server.files), owned.1, l.server, date, now, generated);
  }

  /** Latest file owned by another device but empty: with the intended
      content test the tick reports no new data and neither imports, moves
      nor uploads anything. */
  lemma TickOnEmptyForeignLatest(env: Env, device: Device, server: Server,
                                 date: string, now: int, generated: Cuid.Uuid)
    requires Healthy(device, server) && |server.files| > 0
    requires !OwnedByDevice(Latest(server.files), device, generated)
    requires Latest(server.files).content == []
    ensures var r := Tick(NonEmpty, env, device, server, date, now, generated);
            && r.outcome == Normal(false)
            && r.effects == ConnectEffects(env, device, server)
            && r.device.db == device.db
            && r.server.files == server.files
  {
    TickResolvesLatest(NonEmpty, env, device, server, date, now, generated);
    var l := RestoreData(env, device, server);
    var owned := IsCreatedBy(Latest(server.files), l.device, generated);
    Cuid.GetCuidIdempotent(device.cuidKey, device.store, generated, generated);
  }

  /** The same case with the test as written: `if (content)` holds for the
      empty ArrayBuffer, so the empty download is imported; with the import
      always succeeding, as this model has it, the local database is
      replaced by an empty snapshot and the tick reports new data. */
  lemma EmptyForeignLatestImportedAsWritten(env: Env, device: Device, server: Server,
                                            date: string, now: int, generated: Cuid.Uuid)
    requires Healthy(device, server) && |server.files| > 0
    requires !OwnedByDevice(Latest(server.files), device, generated)
    requires Latest(server.files).content == []
    ensures var r := Tick(ObjectTruthiness, env, device, server, date, now, generated);
            && r.outcome == Normal(true)
            && r.device.db == []
            && ImportData([]) in r.effects
  {
    TickResolvesLatest(ObjectTruthiness, env, device, server, date, now, generated);
    var l := RestoreData(env, device, server);
    var owned := IsCreatedBy(Latest(server.files), l.device, generated);
    Cuid.GetCuidIdempotent(device.cuidKey, device.store, generated, generated);
    PullWhenConnected(ObjectTruthiness, env, Latest(server.files), owned.1, l.server, date, now, generated);
  }

  /** A file moved at a time later than every listed file becomes the
      latest file. */
  lemma MovedFileIsLatest(server: Server, latest: RemoteFile, path: string, now: int)
    requires |server.files| > 0
    requires forall f :: f in server.files ==> f.lastmod < now
    ensures Latest(MoveTo(server.files, latest, path, now)) == RemoteFile(path, BaseName(path), now, latest.content)
  {
    var file := RemoteFile(path, BaseName(path), now, latest.content);
    var files := MoveTo(server.files, latest, path, now);
    assert files == files[..|files| - 1] + [file];
    forall f | f in files && f != file
      ensures f.lastmod < file.lastmod
    {
      assert f in files[..|files| - 1];
    }
    SortFilesUniqueLatest(files, file);
  }

  /** The listed base name of this device's snapshot parses back to its id. */
  lemma OwnPathParsesToId(env: Env, date: string, id: string)
    requires Clean(env.extName) && '/' !in env.extName
    requires Clean(date) && '/' !in date
    requires Clean(id) && '/' !in id
    ensures ParseFileName(BaseName(DataFullFileName(env.rootPath, env.extName, date, id))).cuid == Some(id)
  {
    var name := SnapshotName(env.extName, date, id);
    assert '/' !in name;
    BaseNameOfChild(env.rootPath, name);
    ParseSnapshotNameRoundTrip(env.extName, date, id);
  }

  /** After a pull, the next tick of the same device finds its own snapshot
      latest and imports nothing, provided the server's clock moved past every
      listed file and the names survive parsing. */
  lemma TickAfterPullFindsOwnSnapshot(test: ContentTest, env: Env, device: Device, server: Server,
                                      date: string, now: int, generated: Cuid.Uuid,
                                      date2: string, now2: int, generated2: Cuid.Uuid)
    requires Healthy(device, server) && |server.files| > 0
    requires !OwnedByDevice(Latest(server.files), device, generated)
    requires |Latest(server.files).content| > 0
    requires forall f :: f in server.files ==> f.lastmod < now
    requires Clean(env.extName) && '/' !in env.extName
    requires Clean(date) && '/' !in date
    requires DeviceId(device, generated).Text?
    requires Clean(DeviceId(device, generated).s) && '/' !in DeviceId(device, generated).s
    ensures var r := Tick(test, env, device, server, date, now, generated);
            var r2 := Tick(test, env, r.device, r.server, date2, now2, generated2);
            && r.outcome == Normal(true)
            && r2.outcome == Normal(false)
            && r2.device.db == r.device.db
            && r2.effects == [PutFile(OwnPath(env, r.device, date2, generated2), r.device.db)]
  {
    var r := Tick(test, env, device, server, date, now, generated);
    TickOnForeignLatest(test, env, device, server, date, now, generated);
    TickOnPulledState(test, env, device, server, r.device, r.server, date, now, generated,
                      date2, now2, generated2);
  }

  /** The second tick of `TickAfterPullFindsOwnSnapshot`, from the state the
      pull leaves, stated without the first tick. */
  lemma TickOnPulledState(test: ContentTest, env: Env, device: Device, server: Server,
                          after: Device, afterServer: Server,
                          date: string, now: int, generated: Cuid.Uuid,
                          date2: string, now2: int, generated2: Cuid.Uuid)
    requires |server.files| > 0
    requires forall f :: f in server.files ==> f.lastmod < now
    requires Clean(env.extName) && '/' !in env.extName
    requires Clean(date) && '/' !in date
    requires DeviceId(device, generated).Text?
    requires Clean(DeviceId(device, generated).s) && '/' !in DeviceId(device, generated).s
    requires afterServer.files == MoveTo(server.files, Latest(server.files), OwnPath(env, device, date, generated), now)
    requires after.cuidKey == device.cuidKey
    requires device.cuidKey in after.store && after.store[device.cuidKey] == DeviceId(device, generated)
    requires Healthy(after, afterServer) && after.client.Some?
    ensures var r2 := Tick(test, env, after, afterServer, date2, now2, generated2);
            && r2.outcome == Normal(false)
            && r2.device.db == after.db
            && r2.effects == [PutFile(OwnPath(env, after, date2, generated2), after.db)]
  {
    PulledSnapshotOwned(env, device, server, after, afterServer, date, now, generated, generated2);
    TickOnOwnLatest(test, env, after, afterServer, date2, now2, generated2);
  }

  /** The state a pull leaves (the latest file moved to this device's name,
      the device's id stored) has that snapshot as its latest file, owned by
      the device. */
  lemma PulledSnapshotOwned(env: Env, device: Device, server: Server, after: Device, afterServer: Server,
                            date: string, now: int, generated: Cuid.Uuid, generated2: Cuid.Uuid)
    requires |server.files| > 0
    requires forall f :: f in server.files ==> f.lastmod < now
    requires Clean(env.extName) && '/' !in env.extName
    requires Clean(date) && '/' !in date
    requires DeviceId(device, generated).Text?
    requires Clean(DeviceId(device, generated).s) && '/' !in DeviceId(device, generated).s
    requires afterServer.files == MoveTo(server.files, Latest(server.files), OwnPath(env, device, date, generated), now)
    requires after.cuidKey == device.cuidKey
    requires device.cuidKey in after.store && after.store[device.cuidKey] == DeviceId(device, generated)
    ensures |afterServer.files| > 0 && OwnedByDevice(Latest(afterServer.files), after, generated2)
  {
    var id := DeviceId(device, generated).s;
    var path := OwnPath(env, device, date, generated);
    MovedFileIsLatest(server, Latest(server.files), path, now);
    assert Latest(afterServer.files) == RemoteFile(path, BaseName(path), now, Latest(server.files).content);
    OwnPathParsesToId(env, date, id);
  }
}

=== FILE: webdav.dfy ===
/** The WebDAV side of the library (`src/webdav.ts`): the stored endpoint
    configuration, the cached client, snapshot upload and listing, and the
    one-tick conflict resolver `createDataSyncTick`. Every asynchronous call is
    a function from the state before it to its outcome, the state after it and
    the effects it had, in order. */
module Webdav {
  import opened Common
  import opened Storage
  import Cuid
  import opened Naming
  import opened Listing
  import opened Remote

  /** Key of the stored configuration record. */
  const WebdavConfigKey: string := "webdav_config"

  /** `WebdavState`, set once by `initWebdav`. */
  datatype Env = Env(rootPath: string, extName: string)

  /** A client built by `configClient` from a configuration. */
  datatype Client = Client(config: Config)

  /** What the resolver reads and changes on one installation: the key-value
      store, the key the device id lives under (`STORAGE_KEY` of `cuid.ts`),
      the module-wide cached client (`webDavClient`) and the local database,
      seen as the opaque snapshot it exports. */
  datatype Device = Device(store: Store, cuidKey: string, client: Option<Client>, db: Bytes)

  /** An effect on the outside world. */
  datatype Effect =
    | MakeDirectory(path: string)
    | PutFile(path: string, data: Bytes)
    | MoveFile(from: string, to: string)
    | ImportData(data: Bytes)

  /** Why a call rejected: `getClient` found no configuration ("failed to
      init"), `saveData` got no client ("client init failed..."), or the
      server refused a request. */
  datatype Error = NotConfigured | ClientInitFailed | RemoteFailure

  /** A settled promise: resolved with a value or rejected with an error. */
  datatype Completion<T> = Normal(value: T) | Abrupt(error: Error)

  /** A call's outcome with the state it left behind and its effects. */
  datatype Run<T> = Run(outcome: Completion<T>, device: Device, server: Server, effects: seq<Effect>)

  // ---------------------------------------------------------------------
  // Configuration

  /** `restoreConfig()`: the stored configuration when truthy (`res || null`). */
  function RestoreConfig(store: Store): (r: Option<Value>)
    ensures r.Some? <==> Truthy(GetItem(store, WebdavConfigKey))
    ensures r.Some? ==> r.value == store[WebdavConfigKey]
  {
    var res := GetItem(store, WebdavConfigKey);
    if Truthy(res) then res else None
  }

  /** `saveConfig(config)`; the store write cannot fail in this model. */
  function SaveConfig(store: Store, config: Config): (r: Store)
    ensures RestoreConfig(r) == Some(Record(config))
    ensures r - {WebdavConfigKey} == store - {WebdavConfigKey}
  {
    SetItem(store, WebdavConfigKey, Record(config))
  }

  /** `removeWebDavConfig()`: the configuration is gone and so is the cached
      client; nothing else on the device changes. */
  function RemoveWebDavConfig(device: Device): (r: Device)
    ensures r.client.None? && RestoreConfig(r.store).None?
    ensures WebdavConfigKey !in r.store
    ensures r.store - {WebdavConfigKey} == device.store - {WebdavConfigKey}
    ensures r.cuidKey == device.cuidKey && r.db == device.db
  {
    device.(store := RemoveItem(device.store, WebdavConfigKey), client := None)
  }

  /** `getWebDavURL()`: the stored URL, `""` with no configuration, and
      `undefined` (`None`) when the stored value is truthy but not a record. */
  function GetWebDavURL(store: Store): (url: Option<string>)
    ensures RestoreConfig(store).None? ==> url == Some("")
    ensures RestoreConfig(store).Some? && RestoreConfig(store).value.Record? ==>
              url == Some(RestoreConfig(store).value.config.url)
    ensures url.None? <==> RestoreConfig(store).Some? && !RestoreConfig(store).value.Record?
  {
    match RestoreConfig(store)
    case None => Some("")
    case Some(Record(c)) => Some(c.url)
    case Some(_) => None
  }

  /** A saved configuration's URL is what `getWebDavURL` reports. */
  lemma SavedUrlIsReported(store: Store, config: Config)
    ensures GetWebDavURL(SaveConfig(store, config)) == Some(config.url)
  {
  }

  /** After `removeWebDavConfig` the URL reads as empty. */
  lemma RemovedUrlIsEmpty(device: Device)
    ensures GetWebDavURL(RemoveWebDavConfig(device).store) == Some("")
  {
  }

  /** `isWebDavConfiged()` as written: `restoreConfig()` is not awaited, so
      the test is applied to a pending Promise, an object, which is truthy. */
  function IsWebDavConfigedAsWritten(store: Store): (r: bool)
    ensures r
  {
    true
  }

  /** What `isWebDavConfiged()` is meant to report: a truthy configuration is
      stored. */
  function IsWebDavConfiged(store: Store): (r: bool)
    ensures r <==> Truthy(GetItem(store, WebdavConfigKey))
  {
    RestoreConfig(store).Some?
  }

  /** The as-written predicate reports a configuration on a store that holds
      none, where the intended predicate does not. */
  lemma ConfigedAsWrittenIgnoresStore(store: Store)
    requires WebdavConfigKey !in store
    ensures IsWebDavConfigedAsWritten(store) && !IsWebDavConfiged(store)
  {
  }

  // ---------------------------------------------------------------------
  // Connection

  /** `initClientWithConfig(config)`: builds a client, checks the root
      directory and creates it only when it does not exist; on success the
      client is cached and returned, on any error nothing is cached and the
      result is `null`. It never rejects. */
  function InitClientWithConfig(env: Env, config: Config, device: Device, server: Server): (r: Run<Option<Client>>)
    ensures r.outcome.Normal?
    ensures r.outcome.value.Some? <==> server.online && (server.rootExists || server.writable)
    ensures r.outcome.value.Some? ==>
              && r.outcome.value == Some(Client(config))
              && r.device == device.(client := Some(Client(config)))
              && Readable(r.server)
    ensures r.outcome.value.None? ==> r.device == device && r.server == server
    ensures r.effects == if server.online && !server.rootExists && server.writable
                         then [MakeDirectory(env.rootPath)] else []
    ensures r.server.files == server.files && r.server.online == server.online
            && r.server.writable == server.writable
  {
    var connected := device.(client := Some(Client(config)));
    if !server.online then
      Run(Normal(None), device, server, [])
    else if server.rootExists then
      Run(Normal(Some(Client(config))), connected, server, [])
    else if !server.writable then
      Run(Normal(None), device, server, [])
    else
      Run(Normal(Some(Client(config))), connected, server.(rootExists := true), [MakeDirectory(env.rootPath)])
  }

  /** `getClient()`: the cached client if there is one, otherwise a client
      built from the stored configuration; with neither it rejects. A non-record
      value under the configuration key gives no client (`null`). */
  function GetClient(env: Env, device: Device, server: Server): (r: Run<Option<Client>>)
    ensures device.client.Some? ==> r == Run(Normal(device.client), device, server, [])
    ensures device.client.None? && RestoreConfig(device.store).None? ==>
              r == Run(Abrupt(NotConfigured), device, server, [])
    ensures device.client.None? && RestoreConfig(device.store).Some? && RestoreConfig(device.store).value.Record? ==>
              r == InitClientWithConfig(env, RestoreConfig(device.store).value.config, device, server)
    ensures r.outcome.Abrupt? ==> r.outcome.error == NotConfigured
    ensures r.outcome.Normal? && r.outcome.value.Some? ==>
              r.device.client == r.outcome.value
    ensures r.outcome.Normal? && r.outcome.value.None? ==> r.device == device && r.server == server
    ensures r.device.store == device.store && r.device.cuidKey == device.cuidKey && r.device.db == device.db
    ensures r.server.files == server.files && r.server.online == server.online
            && r.server.writable == server.writable
  {
    if device.client.Some? then
      Run(Normal(device.client), device, server, [])
    else
      match RestoreConfig(device.store)
      case None => Run(Abrupt(NotConfigured), device, server, [])
      case Some(Record(config)) => InitClientWithConfig(env, config, device, server)
      case Some(_) => Run(Normal(None), device, server, [])
  }

  /** A cached client is returned without looking at the configuration: the
      outcome is the same whatever the store holds. */
  lemma CachedClientIgnoresConfig(env: Env, device: Device, server: Server, other: Store)
    requires device.client.Some?
    ensures GetClient(env, device.(store := other), server).outcome == GetClient(env, device, server).outcome
  {
  }

  /** After `removeWebDavConfig`, getting a client rejects. */
  lemma RemovedConfigRejects(env: Env, device: Device, server: Server)
    ensures GetClient(env, RemoveWebDavConfig(device), server).outcome == Abrupt(NotConfigured)
  {
  }

  // ---------------------------------------------------------------------
  // Snapshots

  /** `saveData()`: export the local database and upload it under this
      device's snapshot name for `date`. Rejects when no client can be had or
      the server refuses the upload. */
  function SaveData(env: Env, device: Device, server: Server, date: string, now: int, generated: Cuid.Uuid): (r: Run<()>)
    ensures r.device.db == device.db && r.device.cuidKey == device.cuidKey
    ensures r.device.store - {device.cuidKey} == device.store - {device.cuidKey}
    ensures r.outcome.Normal? ==>
              && device.cuidKey in r.device.store
              && var path := DataFullFileName(env.rootPath, env.extName, date, JsString(r.device.store[device.cuidKey]));
                 |r.effects| > 0 && r.effects[|r.effects| - 1] == PutFile(path, device.db)
                 && r.server.files == Upload(server.files, path, device.db, now)
  {
    var c := GetClient(env, device, server);
    match c.outcome
    case Abrupt(e) => Run(Abrupt(e), c.device, c.server, c.effects)
    case Normal(None) => Run(Abrupt(ClientInitFailed), c.device, c.server, c.effects)
    case Normal(Some(_)) =>
      var data := c.device.db;
      var id := Cuid.GetCuid(c.device.cuidKey, c.device.store, generated);
      var named := c.device.(store := id.store);
      var path := DataFullFileName(env.rootPath, env.extName, date, JsString(id.id));
      if !Writable(c.server) then
        Run(Abrupt(RemoteFailure), named, c.server, c.effects)
      else
        Run(Normal(()), named, c.server.(files := Upload(c.server.files, path, data, now)),
            c.effects + [PutFile(path, data)])
  }

  /** `restoreData()`: the root directory's listing; an empty one when no
      client could be built. */
  function RestoreData(env: Env, device: Device, server: Server): (r: Run<seq<RemoteFile>>)
    ensures r.outcome.Normal? && |r.outcome.value| > 0 ==>
              r.outcome.value == server.files && r.device.client.Some?
    ensures r.device.store == device.store && r.device.cuidKey == device.cuidKey && r.device.db == device.db
    ensures r.server.files == server.files
  {
    var c := GetClient(env, device, server);
    match c.outcome
    case Abrupt(e) => Run(Abrupt(e), c.device, c.server, c.effects)
    case Normal(None) => Run(Normal([]), c.device, c.server, c.effects)
    case Normal(Some(_)) =>
      if !Readable(c.server) then Run(Abrupt(RemoteFailure), c.device, c.server, c.effects)
      else Run(Normal(c.server.files), c.device, c.server, c.effects)
  }

  /** `isCreatedBy(file)`: the cuid field of the file's base name is this
      device's id. Reading the id may create and store one. */
  function IsCreatedBy(file: RemoteFile, device: Device, generated: Cuid.Uuid): (r: (bool, Device))
    ensures var id := Cuid.GetCuid(device.cuidKey, device.store, generated).id;
            r.0 <==> ParseFileName(file.basename).cuid.Some? && id == Text(ParseFileName(file.basename).cuid.value)
    ensures r.1 == device.(store := Cuid.GetCuid(device.cuidKey, device.store, generated).store)
  {
    var info := ParseFileName(file.basename);
    var id := Cuid.GetCuid(device.cuidKey, device.store, generated);
    (info.cuid.Some? && id.id == Text(info.cuid.value), device.(store := id.store))
  }

  /** How the resolver decides a downloaded snapshot is worth importing. */
  datatype ContentTest =
      /** `if (content)` on what a binary download resolves to, an
          ArrayBuffer: an object, so truthy even when it holds no byte. */
    | ObjectTruthiness
      /** Import only a snapshot that holds at least one byte. */
    | NonEmpty

  predicate Accepts(test: ContentTest, content: Bytes) {
    match test
    case ObjectTruthiness => true
    case NonEmpty => |content| > 0
  }

  /** The branch of the tick for a latest file owned by another device:
      download it, and if it passes the content test, import it and move it
      to this device's snapshot name (the name `getDataFullFileName` builds;
      the source passes the un-awaited promise of that name). */
  function PullLatest(test: ContentTest, env: Env, latest: RemoteFile, device: Device, server: Server,
                      date: string, now: int, generated: Cuid.Uuid): (r: Run<bool>)
    ensures r.device.cuidKey == device.cuidKey
    ensures r.device.store - {device.cuidKey} == device.store - {device.cuidKey}
    ensures r.device.db == device.db || (r.device.db == latest.content && ImportData(latest.content) in r.effects)
    ensures r.outcome == Normal(true) ==> r.device.db == latest.content
    ensures r.outcome != Normal(true) ==> r.server == server
    ensures r.outcome.Normal? && !r.outcome.value ==> r.device == device && r.effects == []
  {
    if !Readable(server) then
      Run(Abrupt(RemoteFailure), device, server, [])
    else if !Accepts(test, latest.content) then
      Run(Normal(false), device, server, [])
    else
      var imported := device.(db := latest.content);
      var id := Cuid.GetCuid(imported.cuidKey, imported.store, generated);
      var named := imported.(store := id.store);
      var dest := DataFullFileName(env.rootPath, env.extName, date, JsString(id.id));
      if !Writable(server) then
        Run(Abrupt(RemoteFailure), named, server, [ImportData(latest.content)])
      else
        Run(Normal(true), named, server.(files := MoveTo(server.files, latest, dest, now)),
            [ImportData(latest.content), MoveFile(latest.filename, dest)])
  }

  /** A finished upload reported as "no new data". */
  function NothingReceived(r: Run<()>): (n: Run<bool>)
    ensures n.outcome != Normal(true)
    ensures n.outcome.Normal? <==> r.outcome.Normal?
    ensures n.device == r.device && n.server == r.server && n.effects == r.effects
  {
    Run(if r.outcome.Normal? then Normal(false) else Abrupt(r.outcome.error), r.device, r.server, r.effects)
  }

  /** The tick after a successful listing: with no file, upload a snapshot;
      otherwise look at the first file of the latest-first order: if this
      device owns it, upload a fresh snapshot, else pull it. */
  function Resolve(test: ContentTest, env: Env, files: seq<RemoteFile>, device: Device, server: Server,
                   date: string, now: int, generated: Cuid.Uuid): (r: Run<bool>)
    requires LatestFirst(files)
    ensures r.device.cuidKey == device.cuidKey
    ensures r.device.store - {device.cuidKey} == device.store - {device.cuidKey}
    ensures r.device.db == device.db || (|files| > 0 && r.device.db == files[0].content && ImportData(r.device.db) in r.effects)
    ensures r.outcome == Normal(true) ==> |files| > 0 && r.device.db == files[0].content
  {
    if |files| == 0 then
      NothingReceived(SaveData(env, device, server, date, now, generated))
    else
      var owned := IsCreatedBy(files[0], device, generated);
      if owned.0 then
        NothingReceived(SaveData(env, owned.1, server, date, now, generated))
      else
        PullLatest(test, env, files[0], owned.1, server, date, now, generated)
  }

  /** `createDataSyncTick()`: list the root directory, sort the listing latest
      first (`sortFiles`) and resolve. Resolves to whether data was received.

      Whatever happens, only the identity entry of the store may change, and
      a tick that reports no new data leaves the local database as it was; a
      changed database is one the tick imported from a listed file. */
  function Tick(test: ContentTest, env: Env, device: Device, server: Server,
                date: string, now: int, generated: Cuid.Uuid): (r: Run<bool>)
    ensures r.device.cuidKey == device.cuidKey
    ensures r.device.store - {device.cuidKey} == device.store - {device.cuidKey}
    ensures r.outcome == Normal(false) ==> r.device.db == device.db
    ensures r.device.db != device.db ==> ImportData(r.device.db) in r.effects
    ensures r.outcome == Normal(true) ==> exists f :: f in server.files && r.device.db == f.content
  {
    var listing := RestoreData(env, device, server);
    match listing.outcome
    case Abrupt(e) => Run(Abrupt(e), listing.device, listing.server, listing.effects)
    case Normal(found) =>
      var rest := Resolve(test, env, SortFiles(found), listing.device, listing.server, date, now, generated);
      LatestIsListed(found);
      rest.(effects := listing.effects + rest.effects)
  }

  /** The first file of the sorted listing is one of the listed files. */
  lemma LatestIsListed(found: seq<RemoteFile>)
    ensures |SortFiles(found)| > 0 ==> SortFiles(found)[0] in found
  {
    if |SortFiles(found)| > 0 {
      assert SortFiles(found)[0] in multiset(SortFiles(found));
    }
  }
}
